=== FILE: README.md ===
# UIShell dialog-sequencing state machine

A Dafny model of the core of WixSharp's managed MSI user interface shell
(`UIShell`). The shell shows a sequence of dialogs to the user while the
Windows Installer engine runs on another thread and reports progress, errors
and completion to it. The model covers two parts:

- **Dialog navigation.** `Dialogs` is the dialog sequence chosen for the run
  mode. `currentViewIndex` is a cursor into it, and `CurrentDialog` is the
  mounted dialog. The operations are the `CurrentDialogIndex` setter,
  `GoNext`, `GoPrev`, `GoTo(int)`, `GoTo<T>` and `GoToLast`, plus the choice
  of sequence and first dialog in `ShowModal`. The setter stores the index
  *before* it checks the range. A dialog is mounted only for an index in
  `[0, Count)` when a shell view exists. Stepping past either end therefore
  moves the cursor out of range and keeps the dialog that was mounted.
- **Run state and message dispatch.** The flags are `started`, `canceled`,
  `finished`, `UserInterrupted`, `ErrorDetected` and `Errors`. The model
  covers `StartExecute`, `Cancel`, and `ProcessMessage` as a pure function
  from the state, the message and the collaborators' answers to the new
  state and the disposition returned to the engine.

The state is an immutable record (`ShellState.Shell`). Every operation is a
pure function over it. Commands the shell sends to the engine or to its own
view (start, cancel, close) are returned as a list of effects. Modules:

| module | file | contents |
|---|---|---|
| `Prelude` | prelude.dfy | `Option`, the 32-bit cursor type with wrap-around, dialog identities, ordinal substring search |
| `ShellState` | shell_state.dfy | the shell record, the fresh shell, the cursor/dialog consistency invariant |
| `Navigation` | navigation.dfy | the index setter and the navigation operations |
| `Messages` | messages.dfy | message kinds, dispositions, flag classification, `ProcessMessage` |
| `Lifecycle` | lifecycle.dfy | `StartExecute`, `Cancel`, sequence selection, initial navigation, `ShowModal` |
| `Runs` | runs.dfy | event sequences, the invariants every step keeps, a worked scenario |

Behaviour of `UIShell` worth knowing:

- Navigation past the end is not a no-op. `GoNext` on the last dialog moves
  the cursor to `Count`, and the last dialog stays mounted
  (`Runs.FourDialogScenario`, `Navigation.PastEndKeepsLast`).
- An `InstallEnd` record overwrites both `ErrorDetected` and
  `UserInterrupted` from its last field. A status other than "2" or "3"
  clears both flags rather than keeping them.
- An `Error` message never sets `ErrorDetected` and never appends to
  `Errors`. Error, warning and user prompts return the handler's answer
  before classification, so the branch that records errors cannot be
  reached (`Messages.ErrorRecordNeverLogged`).
- `StartExecute` is not idempotent: every call asks the engine to start.
- `Cancel` does not set `canceled`. Nothing in the shell assigns that flag,
  so the model carries it as a field that only the environment sets.

## Model

| member | source | states |
|---|---|---|
| `ShellState.Fresh` | Source/src/WixSharp.UI/ManagedUI/UIShell.cs:117-168 | a new shell has no dialogs, cursor -1, no mounted dialog, no view, every flag clear and an empty `Errors` list |
| `Messages.IsPrompt` | Source/src/WixSharp.UI/ManagedUI/UIShell.cs:604 | error, warning and user messages are prompts; progress, info, install-end and other kinds are not |
| `Messages.ReportsUserCancel` | Source/src/WixSharp.UI/ManagedUI/UIShell.cs:619-620 | the text reports a user cancel exactly when either spelling of "User canceled installation" occurs at some position in it |
| `Prelude.Inc32` | Source/src/WixSharp.UI/ManagedUI/UIShell.cs:471 | `CurrentDialogIndex++` on a C# `int` is congruent to index + 1 modulo 2^32, so it wraps from the largest value to the smallest |
| `Prelude.Dec32` | Source/src/WixSharp.UI/ManagedUI/UIShell.cs:479 | `CurrentDialogIndex--` is congruent to index - 1 modulo 2^32 |
| `Prelude.Contains` | Source/src/WixSharp.UI/ManagedUI/UIShell.cs:619-620 | the ordinal substring test holds exactly when the phrase occurs at some position of the record text |
| `Navigation.SetCursor` | Source/src/WixSharp.UI/ManagedUI/UIShell.cs:174-260 | the new index is always stored; the mounted dialog becomes `Dialogs[i]` exactly when `i` is in `[0, Count)` and a view exists, and is untouched otherwise; no other field changes; cursor/dialog consistency is preserved |
| `Navigation.GoNext` | Source/src/WixSharp.UI/ManagedUI/UIShell.cs:469-472 | goes through the setter with the incremented index, which is index + 1 below `int.MaxValue` |
| `Navigation.GoPrev` | Source/src/WixSharp.UI/ManagedUI/UIShell.cs:477-480 | goes through the setter with the decremented index, which is index - 1 above `int.MinValue` |
| `Navigation.GoTo` | Source/src/WixSharp.UI/ManagedUI/UIShell.cs:486-489 | `GoTo(int)` always stores the index. It mounts `Dialogs[index]` exactly when the index is in `[0, Count)` and a view exists, otherwise it keeps the mounted dialog. No other field changes |
| `Navigation.IndexOf` | Source/src/WixSharp.UI/ManagedUI/UIShell.cs:496 | `FindIndex` returns -1 exactly when the identity is absent; otherwise it returns a position holding it with no earlier position holding it |
| `Navigation.GoToDialog` | Source/src/WixSharp.UI/ManagedUI/UIShell.cs:494-499 | `GoTo<T>` leaves the shell unchanged when `T` is not in the sequence; otherwise it sets the cursor, through the setter, to the first index holding `T` |
| `Navigation.GoToLast` | Source/src/WixSharp.UI/ManagedUI/UIShell.cs:504-509 | no-op on an empty sequence; otherwise it sets the cursor through the setter to `Count - 1` |
| `Navigation.StoresIndex` | Source/src/WixSharp.UI/ManagedUI/UIShell.cs:469-489 | `GoNext`, `GoPrev` and `GoTo(int)` always store the index they compute, in range or not |
| `Navigation.OutOfRangeKeepsDialog` | Source/src/WixSharp.UI/ManagedUI/UIShell.cs:180-186 | an out-of-range `GoTo` leaves the mounted dialog unchanged |
| `Navigation.StepOffEndKeepsDialog` | Source/src/WixSharp.UI/ManagedUI/UIShell.cs:469-480 | a `GoNext` from the last entry and a `GoPrev` from the first leave the mounted dialog unchanged |
| `Navigation.NextThenPrev` | Source/src/WixSharp.UI/ManagedUI/UIShell.cs:469-480 | `GoPrev` undoes `GoNext`: the cursor comes back, including across the wrap-around, and so does the mounted dialog when the cursor was on a mountable entry |
| `Navigation.GoNextTimes` | Source/src/WixSharp.UI/ManagedUI/UIShell.cs:469-472 | n forward steps move the cursor by n and mount the entry under it when that entry exists; they never change the sequence |
| `Navigation.PastEndKeepsLast` | Source/src/WixSharp.UI/ManagedUI/UIShell.cs:180-186 | from the last dialog, any number of further `GoNext` calls carry the cursor past `Count - 1` while the last dialog stays mounted |
| `Messages.Classify` | Source/src/WixSharp.UI/ManagedUI/UIShell.cs:616-640 | flag classification never navigates, never touches `started` or `canceled`, and never clears `finished` |
| `Messages.ProcessMessage` | Source/src/WixSharp.UI/ManagedUI/UIShell.cs:584-664 | a prompt returns the handler's answer and leaves the state alone. If the handler raises, the mounted dialog's answer or `OK` is returned, even when the run is canceled. Any other kind answers `Cancel` once canceled, else the mounted dialog's answer or `OK`. Progress messages and unclassified kinds leave the state unchanged. A progress fault skips classification. Dispatch never navigates or un-finishes |
| `Messages.InstallEndSetsStatus` | Source/src/WixSharp.UI/ManagedUI/UIShell.cs:630-640 | `InstallEnd` sets `finished` and assigns `ErrorDetected := last == "3"` and `UserInterrupted := last == "2"`. Both flags are kept only when the last field cannot be read |
| `Messages.InstallEndOverwritesEarlierFlags` | Source/src/WixSharp.UI/ManagedUI/UIShell.cs:634-636 | a status "0" clears both flags even when earlier messages had set them |
| `Messages.InfoDetectsUserCancel` | Source/src/WixSharp.UI/ManagedUI/UIShell.cs:616-622 | an `Info` record sets `UserInterrupted` exactly when its text contains either spelling of the user-cancel phrase, and otherwise changes nothing |
| `Messages.UserCancelInContext` | Source/src/WixSharp.UI/ManagedUI/UIShell.cs:618-620 | the phrase is found anywhere in the record text, whatever surrounds it |
| `Messages.ErrorRecordNeverLogged` | Source/src/WixSharp.UI/ManagedUI/UIShell.cs:604-628 | an `Error` message leaves `ErrorDetected`, `Errors` and `finished` as they were, because the prompt path returns first |
| `Messages.ErrorsNeverGrow` | Source/src/WixSharp.UI/ManagedUI/UIShell.cs:595-645 | no message of any kind appends to `Errors` |
| `Messages.OnlyInstallEndSetsStatus` | Source/src/WixSharp.UI/ManagedUI/UIShell.cs:595-640 | only `InstallEnd` can change `ErrorDetected` or `finished` |
| `Lifecycle.StartExecute` | Source/src/WixSharp.UI/ManagedUI/UIShell.cs:122-131 | sets `started` and changes nothing else; asks the engine to start, exactly once per call, exactly when not in demo mode |
| `Lifecycle.Cancel` | Source/src/WixSharp.UI/ManagedUI/UIShell.cs:514-528 | closes the view exactly when not started, and signals the engine's cancel hook exactly when one is present. It returns at most one close followed by at most one cancel request, the close first. No flag changes. Closing a view that was never created faults |
| `Lifecycle.CancelBeforeStartCloses` | Source/src/WixSharp.UI/ManagedUI/UIShell.cs:522-528 | a cancel before start on a shown shell closes it and never asks the engine to start |
| `Lifecycle.SelectDialogs` | Source/src/WixSharp.UI/ManagedUI/UIShell.cs:281-284 | installing selects the install list. Otherwise repairing selects the modify list. No list is assigned exactly when neither holds |
| `Lifecycle.InitialNavigation` | Source/src/WixSharp.UI/ManagedUI/UIShell.cs:334-345 | `SkipRemainingActions` goes to the progress dialog if present, else to the last dialog. `UserExit` goes to the last dialog. Any other verdict does `GoNext` |
| `Lifecycle.ShowModal` | Source/src/WixSharp.UI/ManagedUI/UIShell.cs:268-360 | for a chosen sequence and a verdict other than `Failure`, the shell is shown exactly when the sequence is non-empty and runs headless exactly when it is empty. A shown run mounts a consistent first dialog. That dialog is the first progress dialog (skip), the last dialog (skip without progress dialog, or user exit), or index 0 otherwise. A `Failure` verdict shows nothing. A headless run has started execution and is otherwise a fresh shell. A shown or declined shell starts with every run-state flag clear and an empty `Errors` list; a declined one has not moved the cursor, mounted a dialog or started. An unknown mode assigns no sequence |
| `Runs.Step` | Source/src/WixSharp.UI/ManagedUI/UIShell.cs:134-136 | every operation keeps the sequence, the view, `canceled` and `Errors`. It never clears `started` or `finished` and keeps the cursor consistent with the mounted dialog |
| `Runs.Run` | Source/src/WixSharp.UI/ManagedUI/UIShell.cs:134-136 | the invariants of a single step hold across any sequence of operations |
| `Runs.FinishedIsFinal` | Source/src/WixSharp.UI/ManagedUI/UIShell.cs:639 | after an `InstallEnd` message whose progress update did not fault, `finished` stays true for the rest of the run. A progress fault skips `finished = true` for that message |
| `Runs.StartedIsFinal` | Source/src/WixSharp.UI/ManagedUI/UIShell.cs:126 | after `StartExecute`, `started` stays true for the rest of the run |
| `Runs.ShownRunRecordsNoErrors` | Source/src/WixSharp.UI/ManagedUI/UIShell.cs:624-628 | in a shown run, `Errors` stays empty after any sequence of events, and the mounted dialog stays consistent with the cursor |
| `Runs.FourDialogScenario` | Source/src/WixSharp.UI/ManagedUI/UIShell.cs:469-472 | with four dialogs the shell opens on the first. Three `GoNext` calls reach index 3. A fourth moves the cursor to 4 and keeps the exit dialog mounted |

## Left out

- View construction (the reflection, `Activator`, the WPF hosting and `CreateDefaultWpfDialgHost`) is reduced to "the mounted dialog becomes `Dialogs[i]`". A failure inside view construction, which the setter swallows, is not modelled.
- Thread marshalling (`InUIThread`, `Control.Invoke`), the `volatile` fields and the headless wait loop are concurrency and blocking. Calls are modelled as sequential; `Launch.Headless` records only that execution was started.
- The progress counter (`InstallProgressCounter`) is not part of this model and works in floating point. The percentage pushed to the dialog is not modelled. Whether computing or publishing it raised is an input (`progressFault`).
- `OnExecuteStarted`, `OnExecuteComplete` and `OnProgress` only forward to the mounted dialog (and fetch the install directory). They are left out because their effect lies in the dialog, outside the shell's state.
- The client handlers behind `UILoaded`, the persistence of the runtime data in the session, localization, icon loading, UAC revealing, the default message box and the virtual log are I/O or foreign calls. The client handlers' `UIInitialized` verdict and the message handler's answer are inputs. The swallowed persistence failures change no state.
- `DemoPlay`, `Play` and `BuildUiPlayerResources` do file-system work and build an MSI, so they are left out. Demo mode appears only as the `demoMode` argument of `StartExecute`.
- How `canceled` becomes true is not modelled, because nothing in the shell assigns it. It is a field of the state that only the environment sets.
- Messages.ProcessMessage: the mounted dialog's answer is assumed to return. An exception thrown by the dialog itself escapes `ProcessMessage` in the source and is not modelled.
- Messages.MessageKind: message kinds other than progress, error, warning, user, info and install-end are handled identically by the shell. They are collapsed into `Other`.
- ShellState.Fresh: a newly constructed shell has no dialog list (`Dialogs` is null), which the model represents as the empty sequence. `GoTo<T>` and `GoToLast` on such a shell (before `ShowModal`, or after a launch that assigned no list) throw a NullReferenceException in the source; in the model they are no-ops. The setter swallows the same exception, so it matches.

=== FILE: lifecycle.dfy ===
/**
 The run's lifecycle: choosing the dialog sequence and the first dialog when
 the shell is shown, starting execution, and canceling. Commands the shell
 sends out (to the engine, or to its own view) are returned as effects.
 */
module Lifecycle {
  import opened Prelude
  import opened ShellState
  import opened Navigation

  /** What the shell asks of its collaborators. */
  datatype Effect =
    | RequestStart    // `Runtime.StartExecute()`: the engine begins executing the install script
    | RequestCancel   // `Runtime.CancelExecute()`: the engine is asked to abort
    | CloseView       // `Exit()`: the shell view is closed

  datatype Transition = Transition(shell: Shell, effects: seq<Effect>)

  /** A fault that escapes a shell operation. */
  datatype Fault = NoView   // the operation dereferenced a shell view that was never created

  datatype Outcome = Done(transition: Transition) | Faulted(fault: Fault)

  /** How the engine describes the current invocation. */
  datatype RunMode = RunMode(installing: bool, repairing: bool)

  /** The client handlers' verdict on `UIInitialized` (`ActionResult`). */
  datatype ActionResult = Success | Failure | UserExit | SkipRemainingActions | NotExecuted | Suspend

  /** `StartExecute`: latches `started` and asks the engine to start unless the shell only plays a demo. */
  function StartExecute(s: Shell, demoMode: bool): (t: Transition)
    ensures t.shell.started
    ensures t.shell == s.(started := true)
    ensures RequestStart in t.effects <==> !demoMode
    ensures |t.effects| == (if demoMode then 0 else 1)
    ensures CloseView !in t.effects && RequestCancel !in t.effects
  {
    Transition(s.(started := true), if demoMode then [] else [RequestStart])
  }

  /**
   `Cancel`: before execution has started the shell view is closed; in every
   case the engine's cancel hook is invoked when the engine supplied one.
   Closing a view that was never created faults before the hook is reached.
   No flag changes: in particular `canceled` is not set here.
   */
  function Cancel(s: Shell, hasCancelHook: bool): (o: Outcome)
    ensures o.Faulted? <==> !s.started && !s.view
    ensures o.Done? ==> o.transition.shell == s
    ensures o.Done? ==> (CloseView in o.transition.effects <==> !s.started)
    ensures o.Done? ==> (RequestCancel in o.transition.effects <==> hasCancelHook)
    ensures o.Done? ==> RequestStart !in o.transition.effects
    // `Exit()` once, then the hook once: the close comes first
    ensures o.Done? ==> |o.transition.effects| == (if s.started then 0 else 1) + (if hasCancelHook then 1 else 0)
    ensures o.Done? && !s.started ==> o.transition.effects[0] == CloseView
  {
    if !s.started && !s.view then Faulted(NoView)
    else
      var closing := if !s.started then [CloseView] else [];
      Done(Transition(s, closing + (if hasCancelHook then [RequestCancel] else [])))
  }

  /**
   The dialog sequence for the run mode: the install list when installing,
   otherwise the modify list when repairing; in any other mode no list is
   assigned.
   */
  function SelectDialogs(mode: RunMode, installList: DialogList, modifyList: DialogList): (d: Option<DialogList>)
    ensures mode.installing ==> d == Some(installList)
    ensures !mode.installing && mode.repairing ==> d == Some(modifyList)
    ensures d == None <==> !mode.installing && !mode.repairing
  {
    if mode.installing then Some(installList)
    else if mode.repairing then Some(modifyList)
    else None
  }

  /**
   The first move after `UIInitialized`: a request to skip the remaining
   actions jumps to the progress dialog (or to the last dialog when there is
   none), a user exit jumps to the last dialog, and anything else steps
   forward once.
   */
  function InitialNavigation(s: Shell, verdict: ActionResult): (r: Shell)
    ensures verdict == SkipRemainingActions && ProgressDialog in s.dialogs ==>
      r == GoToDialog(s, ProgressDialog) && s.dialogs[r.cursor] == ProgressDialog
    ensures verdict == SkipRemainingActions && ProgressDialog !in s.dialogs ==> r == GoToLast(s)
    ensures verdict == UserExit ==> r == GoToLast(s)
    ensures verdict != SkipRemainingActions && verdict != UserExit ==> r == GoNext(s)
  {
    if verdict == SkipRemainingActions then
      if ProgressDialog in s.dialogs then GoToDialog(s, ProgressDialog) else GoToLast(s)
    else if verdict == UserExit then GoToLast(s)
    else GoNext(s)
  }

  /** What `ShowModal` leads to. */
  datatype Launch =
    | Unassigned                   // neither installing nor repairing: no sequence, and testing it for entries faults
    | Declined(shell: Shell)       // `UIInitialized` failed: nothing is shown and nothing is started
    | Headless(start: Transition)  // empty sequence: no view, execution starts at once
    | Shown(shell: Shell)          // a view with the first dialog mounted

  /**
   `ShowModal` on a newly constructed shell: choose the sequence, create a view
   for a non-empty one, consult the client handlers' `UIInitialized` verdict,
   then either navigate to the first dialog or run headless.
   */
  function ShowModal(mode: RunMode, installList: DialogList, modifyList: DialogList, verdict: ActionResult): (l: Launch)
    ensures l.Unassigned? <==> SelectDialogs(mode, installList, modifyList) == None
    ensures l.Declined? <==> SelectDialogs(mode, installList, modifyList) != None && verdict == Failure
    ensures SelectDialogs(mode, installList, modifyList).Some? && verdict != Failure ==>
      (l.Shown? <==> |SelectDialogs(mode, installList, modifyList).value| > 0)
    ensures SelectDialogs(mode, installList, modifyList).Some? && verdict != Failure ==>
      (l.Headless? <==> |SelectDialogs(mode, installList, modifyList).value| == 0)
    ensures l.Headless? ==> l.start.shell.started && l.start.effects == [RequestStart] && l.start.shell.dialogs == []
    // the shell is new: a headless run differs from a fresh shell only in having started
    ensures l.Headless? ==> l.start.shell == Fresh().(dialogs := [], started := true)
    // a declined launch has not moved the cursor, mounted anything or started
    ensures l.Declined? ==> l.shell.cursor as int == -1 && l.shell.current == None && !l.shell.started
    ensures l.Declined? ==>
      && !l.shell.canceled && !l.shell.finished && !l.shell.userInterrupted && !l.shell.errorDetected
      && l.shell.errors == []
    // a shown run begins with every run-state flag clear
    ensures l.Shown? ==>
      && !l.shell.canceled && !l.shell.finished && !l.shell.userInterrupted && !l.shell.errorDetected
      && l.shell.errors == []
    ensures l.Shown? ==>
      var s := l.shell;
      && |s.dialogs| > 0 && s.view && !s.started && Consistent(s)
      && SelectDialogs(mode, installList, modifyList) == Some(s.dialogs)
      && 0 <= s.cursor as int < |s.dialogs| && s.current == Some(s.dialogs[s.cursor])
      && (verdict == SkipRemainingActions && ProgressDialog in s.dialogs ==>
            s.dialogs[s.cursor] == ProgressDialog && forall j :: 0 <= j < s.cursor as int ==> s.dialogs[j] != ProgressDialog)
      && (verdict == SkipRemainingActions && ProgressDialog !in s.dialogs ==> s.cursor as int == |s.dialogs| - 1)
      && (verdict == UserExit ==> s.cursor as int == |s.dialogs| - 1)
      && (verdict != SkipRemainingActions && verdict != UserExit ==> s.cursor == 0)
  {
    match SelectDialogs(mode, installList, modifyList)
    case None => Unassigned
    case Some(d) =>
      var s := Fresh().(dialogs := d, view := |d| > 0);
      if verdict == Failure then Declined(s)
      else if s.view then Shown(InitialNavigation(s, verdict))
      else Headless(StartExecute(s, false))
  }

  /** Canceling before execution starts closes the shell and never asks the engine to start. */
  lemma CancelBeforeStartCloses(s: Shell, hasCancelHook: bool)
    requires !s.started && s.view
    ensures Cancel(s, hasCancelHook).Done?
    ensures CloseView in Cancel(s, hasCancelHook).transition.effects
    ensures RequestStart !in Cancel(s, hasCancelHook).transition.effects
  {
  }
}

=== FILE: messages.dfy ===
/**
 Engine message dispatch (`ProcessMessage`). The engine blocks on each call
 until it gets a disposition back. Prompts (error, warning, user) go to the
 message-dialog handler and return its answer at once. Every other kind is
 classified into the run-state flags, and is then answered with `Cancel`
 once the run is canceled, or else by the current dialog (`OK` when no
 dialog is mounted).

 Inputs the shell cannot see are parameters: the record's text, the record's
 last field (`None` when reading it raises), whether updating or publishing
 the progress percentage raised, the message handler's answer (`None` when it
 raises) and the answer the mounted dialog would give.
 */
module Messages {
  import opened Prelude
  import opened ShellState

  /** The engine message kinds the shell distinguishes; `Other` stands for every kind it treats alike. */
  datatype MessageKind = Progress | Error | Warning | User | Info | InstallEnd | Other

  /** The engine's dispositions (`MessageResult`). */
  datatype MessageResult = NoResponse | OK | Cancel | Abort | Retry | Ignore | Yes | No

  datatype Message = Message(kind: MessageKind, text: string, lastField: Option<string>)

  /** The disposition and the shell state after one message. */
  datatype Reply = Reply(shell: Shell, response: MessageResult)

  /** The protocol's completion status codes carried in the last field of an `InstallEnd` record. */
  const StatusUserExit: string := "2"
  const StatusFailure: string := "3"

  const CanceledPhrase: string := "User canceled installation"
  const CancelledPhrase: string := "User cancelled installation"

  /** The kinds that are shown to the user and answered by the message-dialog handler. */
  function IsPrompt(k: MessageKind): (b: bool)
    ensures b ==> k != Progress && k != Info && k != InstallEnd && k != Other
    ensures k == Error || k == Warning || k == User ==> b
  {
    k == Error || k == Warning || k == User
  }

  /** The informational text by which the engine reports that the user stopped the installation. */
  function ReportsUserCancel(text: string): (b: bool)
    ensures b <==> exists i: nat :: i <= |text| && (OccursAt(text, CanceledPhrase, i) || OccursAt(text, CancelledPhrase, i))
  {
    Contains(text, CanceledPhrase) || Contains(text, CancelledPhrase)
  }

  /** The last step of dispatch: the mounted dialog's answer, or `OK` when nothing is mounted. */
  function DialogReply(s: Shell, dialogResponse: MessageResult): (r: MessageResult)
    ensures s.current == None ==> r == OK
    ensures s.current != None ==> r == dialogResponse
  {
    if s.current.Some? then dialogResponse else OK
  }

  /** The flag updates of the non-progress branch of dispatch (info, error and install-end records). */
  function Classify(s: Shell, m: Message): (r: Shell)
    ensures r.dialogs == s.dialogs && r.cursor == s.cursor && r.current == s.current && r.view == s.view
    ensures r.started == s.started && r.canceled == s.canceled
    ensures s.finished ==> r.finished
  {
    var afterInfo :=
      if m.kind == Info && ReportsUserCancel(m.text) then s.(userInterrupted := true) else s;
    var afterError :=
      if m.kind == Error then afterInfo.(errorDetected := true, errors := afterInfo.errors + [m.text])
      else afterInfo;
    if m.kind == InstallEnd then
      var withStatus :=
        match m.lastField
        case Some(v) => afterError.(errorDetected := v == StatusFailure, userInterrupted := v == StatusUserExit)
        case None => afterError;
      withStatus.(finished := true)
    else
      afterError
  }

  /** `ProcessMessage`. */
  function ProcessMessage(s: Shell, m: Message, progressFault: bool,
                          handlerResponse: Option<MessageResult>, dialogResponse: MessageResult): (r: Reply)
    // dispatch never navigates, never starts or cancels, and never un-finishes the run
    ensures r.shell.dialogs == s.dialogs && r.shell.cursor == s.cursor && r.shell.current == s.current
    ensures r.shell.view == s.view && r.shell.started == s.started && r.shell.canceled == s.canceled
    ensures s.finished ==> r.shell.finished
    // prompts: the handler's answer is returned and no flag moves
    ensures !progressFault && IsPrompt(m.kind) && handlerResponse.Some? ==> r == Reply(s, handlerResponse.value)
    // a handler that raises skips the cancel check: the mounted dialog answers, or `OK`
    ensures !progressFault && IsPrompt(m.kind) && handlerResponse.None? ==>
      r.response == (if s.current.Some? then dialogResponse else OK)
    ensures IsPrompt(m.kind) ==> r.shell == s
    // progress records and kinds the shell does not classify change no state
    ensures m.kind == Progress || m.kind == Other ==> r.shell == s
    // every other kind: cancel wins, else the mounted dialog answers
    ensures !progressFault && !IsPrompt(m.kind) && s.canceled ==> r.response == Cancel
    ensures !progressFault && !IsPrompt(m.kind) && !s.canceled ==>
      r.response == (if s.current.Some? then dialogResponse else OK)
    // a fault while reporting progress skips all classification
    ensures progressFault ==> r.shell == s && r.response == (if s.current.Some? then dialogResponse else OK)
  {
    if progressFault then
      Reply(s, DialogReply(s, dialogResponse))
    else if IsPrompt(m.kind) then
      match handlerResponse
      case Some(answer) => Reply(s, answer)
      case None => Reply(s, DialogReply(s, dialogResponse))
    else
      var next := if m.kind == Progress then s else Classify(s, m);
      if s.canceled then Reply(next, Cancel)
      else Reply(next, DialogReply(next, dialogResponse))
  }

  /**
   An `InstallEnd` record latches `finished` and OVERWRITES both status flags
   from its last field: "3" means failure, "2" means the user stopped it, any
   other value clears both. Only a last field that cannot be read leaves them.
   */
  lemma InstallEndSetsStatus(s: Shell, text: string, last: Option<string>,
                             handlerResponse: Option<MessageResult>, dialogResponse: MessageResult)
    ensures var r := ProcessMessage(s, Message(InstallEnd, text, last), false, handlerResponse, dialogResponse).shell;
      && r.finished
      && (last.Some? ==> r.errorDetected == (last.value == "3") && r.userInterrupted == (last.value == "2"))
      && (last.None? ==> r.errorDetected == s.errorDetected && r.userInterrupted == s.userInterrupted)
      && r.errors == s.errors
  {
  }

  /** An `InstallEnd` record with status "0" clears flags that earlier messages had set. */
  lemma InstallEndOverwritesEarlierFlags(s: Shell, text: string)
    requires s.errorDetected && s.userInterrupted
    ensures var r := ProcessMessage(s, Message(InstallEnd, text, Some("0")), false, None, OK).shell;
      !r.errorDetected && !r.userInterrupted
  {
  }

  /**
   An `Info` record sets `UserInterrupted` exactly when its text contains one
   of the two spellings of the user-cancel phrase; it changes no other flag.
   */
  lemma InfoDetectsUserCancel(s: Shell, text: string, last: Option<string>,
                              handlerResponse: Option<MessageResult>, dialogResponse: MessageResult)
    ensures var r := ProcessMessage(s, Message(Info, text, last), false, handlerResponse, dialogResponse).shell;
      && r.userInterrupted == (s.userInterrupted || ReportsUserCancel(text))
      && r.errorDetected == s.errorDetected && r.finished == s.finished && r.errors == s.errors
      && (!ReportsUserCancel(text) ==> r == s)
  {
  }

  /** The phrase check is a substring search: any surrounding text still reports the cancel. */
  lemma {:induction false} UserCancelInContext(prefix: string, suffix: string)
    ensures ReportsUserCancel(prefix + CanceledPhrase + suffix)
    ensures ReportsUserCancel(prefix + CancelledPhrase + suffix)
  {
    var t1 := prefix + CanceledPhrase + suffix;
    assert t1[|prefix|..|prefix| + |CanceledPhrase|] == CanceledPhrase;
    assert OccursAt(t1, CanceledPhrase, |prefix|);
    var t2 := prefix + CancelledPhrase + suffix;
    assert t2[|prefix|..|prefix| + |CancelledPhrase|] == CancelledPhrase;
    assert OccursAt(t2, CancelledPhrase, |prefix|);
  }

  /**
   Because prompts return before classification, an `Error` record never
   reaches the branch that records it: `ErrorDetected` and `Errors` are left
   as they were, whatever the handler does.
   */
  lemma ErrorRecordNeverLogged(s: Shell, text: string, last: Option<string>, progressFault: bool,
                               handlerResponse: Option<MessageResult>, dialogResponse: MessageResult)
    ensures var r := ProcessMessage(s, Message(Error, text, last), progressFault, handlerResponse, dialogResponse).shell;
      r.errorDetected == s.errorDetected && r.errors == s.errors && r.finished == s.finished
  {
  }

  /** No message of any kind ever appends to `Errors`. */
  lemma ErrorsNeverGrow(s: Shell, m: Message, progressFault: bool,
                        handlerResponse: Option<MessageResult>, dialogResponse: MessageResult)
    ensures ProcessMessage(s, m, progressFault, handlerResponse, dialogResponse).shell.errors == s.errors
  {
  }

  /** Only `InstallEnd` can change `ErrorDetected` or set `finished`. */
  lemma OnlyInstallEndSetsStatus(s: Shell, m: Message, progressFault: bool,
                                 handlerResponse: Option<MessageResult>, dialogResponse: MessageResult)
    requires m.kind != InstallEnd
    ensures var r := ProcessMessage(s, m, progressFault, handlerResponse, dialogResponse).shell;
      r.errorDetected == s.errorDetected && r.finished == s.finished
  {
  }
}

=== FILE: navigation.dfy ===
/**
 Dialog navigation: the `CurrentDialogIndex` setter and the operations built
 on it. The setter stores the new index first and only then checks it; a
 dialog is mounted only when the index lies inside the sequence (and a view
 exists to mount it in). An out-of-range index therefore moves the cursor
 without touching the mounted dialog.
 */
module Navigation {
  import opened Prelude
  import opened ShellState

  /** The `CurrentDialogIndex` setter. */
  function SetCursor(s: Shell, i: int32): (r: Shell)
    ensures r.cursor == i
    ensures Mountable(s, i) ==> r.current == Some(s.dialogs[i])
    ensures !Mountable(s, i) ==> r.current == s.current
    ensures r == s.(cursor := i, current := r.current)
    ensures Consistent(s) ==> Consistent(r)
  {
    if Mountable(s, i) then s.(cursor := i, current := Some(s.dialogs[i]))
    else s.(cursor := i)
  }

  /** `GoNext`: `CurrentDialogIndex++`. */
  function GoNext(s: Shell): (r: Shell)
    ensures r == SetCursor(s, Inc32(s.cursor))
    ensures s.cursor as int < MaxInt32 ==> r.cursor as int == s.cursor as int + 1
  {
    SetCursor(s, Inc32(s.cursor))
  }

  /** `GoPrev`: `CurrentDialogIndex--`. */
  function GoPrev(s: Shell): (r: Shell)
    ensures r == SetCursor(s, Dec32(s.cursor))
    ensures MinInt32 < s.cursor as int ==> r.cursor as int == s.cursor as int - 1
  {
    SetCursor(s, Dec32(s.cursor))
  }

  /**
   `GoTo(int index)`: the index is stored whatever its value, and the dialog at
   it is mounted only when it is inside the sequence; nothing else changes.
   */
  function GoTo(s: Shell, index: int32): (r: Shell)
    ensures r.cursor == index
    ensures Mountable(s, index) ==> r.current == Some(s.dialogs[index])
    ensures !Mountable(s, index) ==> r.current == s.current
    ensures r == s.(cursor := index, current := r.current)
  {
    SetCursor(s, index)
  }

  /** `List.FindIndex` with identity equality: the first position holding `t`, or -1. */
  function IndexOf(d: seq<DialogId>, t: DialogId): (r: int)
    ensures -1 <= r < |d|
    ensures r == -1 <==> t !in d
    ensures 0 <= r ==> d[r] == t && forall j :: 0 <= j < r ==> d[j] != t
  {
    if |d| == 0 then -1
    else if d[0] == t then 0
    else
      var k := IndexOf(d[1..], t);
      assert d == [d[0]] + d[1..];
      if k == -1 then -1
      else
        assert forall j :: 1 <= j <= k ==> d[j] == d[1..][j - 1];
        k + 1
  }

  /** `GoTo<T>()`: moves to the first entry whose identity is `t`; nothing happens when there is none. */
  function GoToDialog(s: Shell, t: DialogId): (r: Shell)
    ensures t !in s.dialogs ==> r == s
    ensures t in s.dialogs ==>
      && 0 <= r.cursor as int < |s.dialogs|
      && s.dialogs[r.cursor] == t
      && (forall j :: 0 <= j < r.cursor as int ==> s.dialogs[j] != t)
      && r == SetCursor(s, r.cursor)
  {
    var index := IndexOf(s.dialogs, t);
    if index != -1 then SetCursor(s, index as int32) else s
  }

  /** `GoToLast()`: moves to `Count - 1`, unless the sequence is empty. */
  function GoToLast(s: Shell): (r: Shell)
    ensures |s.dialogs| == 0 ==> r == s
    ensures |s.dialogs| > 0 ==> r.cursor as int == |s.dialogs| - 1 && r == SetCursor(s, r.cursor)
  {
    var index := |s.dialogs| - 1;
    if index != -1 then SetCursor(s, index as int32) else s
  }

  /** The three index-moving operations always store the index they computed. */
  lemma StoresIndex(s: Shell, i: int32)
    ensures GoNext(s).cursor == Inc32(s.cursor)
    ensures GoPrev(s).cursor == Dec32(s.cursor)
    ensures GoTo(s, i).cursor == i
  {
  }

  /**
   The mounted dialog changes only through an in-range index: stepping past
   either end of the sequence leaves the previously mounted dialog in place.
   */
  lemma OutOfRangeKeepsDialog(s: Shell, i: int32)
    requires !(0 <= i as int < |s.dialogs|)
    ensures GoTo(s, i).current == s.current
  {
  }

  /** Stepping off either end of the sequence keeps the mounted dialog. */
  lemma StepOffEndKeepsDialog(s: Shell)
    ensures s.cursor as int == |s.dialogs| - 1 ==> GoNext(s).current == s.current
    ensures s.cursor as int == 0 ==> GoPrev(s).current == s.current
  {
  }

  /** `GoNext` followed by `GoPrev` restores the cursor and, for a consistent shell on a mountable entry, the dialog. */
  lemma {:induction false} NextThenPrev(s: Shell)
    requires Consistent(s)
    ensures GoPrev(GoNext(s)).cursor == s.cursor
    ensures Mountable(s, s.cursor) ==> GoPrev(GoNext(s)).current == s.current
    ensures Consistent(GoPrev(GoNext(s)))
  {
    IncDecInverse(s.cursor);
  }

  /** A run of `n` forward steps from cursor `c` lands on `c + n` as long as no wrap-around occurs. */
  function GoNextTimes(s: Shell, n: nat): (r: Shell)
    requires s.cursor as int + n <= MaxInt32
    ensures r.cursor as int == s.cursor as int + n
    ensures r.dialogs == s.dialogs && r.view == s.view
    ensures Consistent(s) ==> Consistent(r)
    ensures n > 0 && s.view && 0 <= s.cursor as int + n < |s.dialogs| ==> r.current == Some(s.dialogs[s.cursor as int + n])
    decreases n
  {
    if n == 0 then s else GoNext(GoNextTimes(s, n - 1))
  }

  /** Once the cursor runs past the end, further forward steps keep the last mounted dialog. */
  lemma {:induction false} PastEndKeepsLast(s: Shell, n: nat)
    requires s.view && Consistent(s) && |s.dialogs| > 0
    requires s.cursor as int == |s.dialogs| - 1
    requires s.cursor as int + n <= MaxInt32
    ensures GoNextTimes(s, n).cursor as int == |s.dialogs| - 1 + n
    ensures GoNextTimes(s, n).current == Some(s.dialogs[|s.dialogs| - 1])
    decreases n
  {
    if n > 0 {
      PastEndKeepsLast(s, n - 1);
    }
  }
}

=== FILE: prelude.dfy ===
/**
 Shared vocabulary of the UI shell model: an option type, the 32-bit signed
 integer the shell's cursor is stored in, dialog identities and ordinal
 substring search on record text.
 */
module Prelude {

  datatype Option<+T> = None | Some(value: T)

  const MinInt32: int := -0x8000_0000
  const MaxInt32: int := 0x7FFF_FFFF

  /** The C# `int`: a 32-bit two's complement integer. */
  newtype int32 = x: int | -0x8000_0000 <= x < 0x8000_0000

  /** `x++` on a C# `int` in an unchecked context: wraps from the largest value to the smallest. */
  function Inc32(x: int32): (r: int32)
    ensures (r as int - (x as int + 1)) % 0x1_0000_0000 == 0
    ensures x as int < MaxInt32 ==> r as int == x as int + 1
  {
    if x as int == MaxInt32 then MinInt32 as int32 else x + 1
  }

  /** `x--` on a C# `int` in an unchecked context: wraps from the smallest value to the largest. */
  function Dec32(x: int32): (r: int32)
    ensures (r as int - (x as int - 1)) % 0x1_0000_0000 == 0
    ensures MinInt32 < x as int ==> r as int == x as int - 1
  {
    if x as int == MinInt32 then MaxInt32 as int32 else x - 1
  }

  /** Increment and decrement undo each other, including across the wrap-around. */
  lemma IncDecInverse(x: int32)
    ensures Dec32(Inc32(x)) == x
    ensures Inc32(Dec32(x)) == x
  {
  }

  /**
   The identity of a dialog: what a dialog type is (its full type name), not
   an instance of it. Two entries of a dialog sequence are the same dialog
   exactly when their identities are equal.
   */
  datatype DialogId = DialogId(typeName: string)

  /** The stock progress dialog, which a client handler may ask the shell to jump to. */
  const ProgressDialog: DialogId := DialogId("WixSharp.UI.Forms.ProgressDialog")

  /** A dialog sequence: a list whose `Count` is a C# `int`. */
  type DialogList = d: seq<DialogId> | |d| <= 0x7FFF_FFFF witness []

  /** `pat` occurs in `text` starting at position `i`. */
  predicate OccursAt(text: string, pat: string, i: nat)
  {
    i + |pat| <= |text| && text[i..i + |pat|] == pat
  }

  /** Ordinal `string.Contains`: true exactly when `pat` occurs somewhere in `text`. */
  function Contains(text: string, pat: string): (b: bool)
    ensures b <==> exists i: nat :: i <= |text| && OccursAt(text, pat, i)
    decreases |text|
  {
    if |text| < |pat| then
      false
    else if text[..|pat|] == pat then
      assert OccursAt(text, pat, 0);
      true
    else
      var rest := Contains(text[1..], pat);
      if rest then
        var j: nat :| j <= |text[1..]| && OccursAt(text[1..], pat, j);
        assert text[1..][j..j + |pat|] == text[j + 1..j + 1 + |pat|];
        assert OccursAt(text, pat, j + 1);
        true
      else
        assert forall i: nat :: 1 <= i <= |text| && OccursAt(text, pat, i) ==> OccursAt(text[1..], pat, i - 1) by {
          forall i: nat | 1 <= i <= |text| && OccursAt(text, pat, i)
            ensures OccursAt(text[1..], pat, i - 1)
          {
            assert text[1..][i - 1..i - 1 + |pat|] == text[i..i + |pat|];
          }
        }
        false
  }
}

=== FILE: runs.dfy ===
/**
 Whole runs: the shell's operations applied one after another, as the UI
 context serialises them. What every step keeps is collected in `Follows`:
 the sequence and the view never change, `canceled` and `Errors` are never
 written, `started` and `finished` only ever go from false to true, and the
 mounted dialog stays consistent with the cursor.
 */
module Runs {
  import opened Prelude
  import opened ShellState
  import opened Navigation
  import opened Messages
  import opened Lifecycle

  /** One call into the shell, from the user's side or from the engine. */
  datatype Event =
    | Next
    | Prev
    | GoIndex(index: int32)
    | GoDialog(target: DialogId)
    | Last
    | Start(demoMode: bool)
    | CancelRun(hasCancelHook: bool)
    | Engine(m: Message, progressFault: bool, handlerResponse: Option<MessageResult>, dialogResponse: MessageResult)

  /** `t` is a state the shell can reach from `s` without breaking any of its invariants. */
  predicate Follows(s: Shell, t: Shell)
  {
    && t.dialogs == s.dialogs && t.view == s.view
    && t.canceled == s.canceled && t.errors == s.errors
    && (s.started ==> t.started) && (s.finished ==> t.finished)
    && (Consistent(s) ==> Consistent(t))
  }

  /** The shell after one event; a cancel whose fault escapes leaves the state as it was. */
  function Step(s: Shell, e: Event): (r: Shell)
    ensures Follows(s, r)
    ensures e.Start? ==> r.started
    ensures e.Engine? && !e.progressFault && e.m.kind == InstallEnd ==> r.finished
  {
    match e
    case Next => GoNext(s)
    case Prev => GoPrev(s)
    case GoIndex(i) => GoTo(s, i)
    case GoDialog(t) => GoToDialog(s, t)
    case Last => GoToLast(s)
    case Start(demo) => StartExecute(s, demo).shell
    case CancelRun(hook) =>
      (match Lifecycle.Cancel(s, hook)
       case Done(t) => t.shell
       case Faulted(_) => s)
    case Engine(m, fault, handler, dialog) =>
      ProcessMessage(s, m, fault, handler, dialog).shell
  }

  /** The shell after a sequence of events, applied in order. */
  function Run(s: Shell, events: seq<Event>): (r: Shell)
    ensures Follows(s, r)
    decreases |events|
  {
    if events == [] then s else Run(Step(s, events[0]), events[1..])
  }

  /** Running two sequences back to back is running their concatenation. */
  lemma {:induction false} RunAppend(s: Shell, a: seq<Event>, b: seq<Event>)
    ensures Run(s, a + b) == Run(Run(s, a), b)
    decreases |a|
  {
    if a == [] {
      assert a + b == b;
    } else {
      assert (a + b)[0] == a[0];
      assert (a + b)[1..] == a[1..] + b;
      RunAppend(Step(s, a[0]), a[1..], b);
    }
  }

  /** Once the engine has reported the end of the installation, no later event un-finishes the run. */
  lemma {:induction false} FinishedIsFinal(s: Shell, before: seq<Event>, text: string, last: Option<string>,
                                           handler: Option<MessageResult>, dialog: MessageResult, after: seq<Event>)
    ensures Run(s, before + [Engine(Message(InstallEnd, text, last), false, handler, dialog)] + after).finished
  {
    var end := Engine(Message(InstallEnd, text, last), false, handler, dialog);
    RunAppend(s, before + [end], after);
    RunAppend(s, before, [end]);
    var mid := Run(s, before);
    assert Run(mid, [end]) == Run(Step(mid, end), []);
  }

  /** Started once, started for good. */
  lemma {:induction false} StartedIsFinal(s: Shell, before: seq<Event>, demo: bool, after: seq<Event>)
    ensures Run(s, before + [Start(demo)] + after).started
  {
    RunAppend(s, before + [Start(demo)], after);
    RunAppend(s, before, [Start(demo)]);
    var mid := Run(s, before);
    assert Run(mid, [Start(demo)]) == Run(Step(mid, Start(demo)), []);
  }

  /** A shown shell never records an error, whatever the engine reports. */
  lemma ShownRunRecordsNoErrors(mode: RunMode, installList: DialogList, modifyList: DialogList,
                                verdict: ActionResult, events: seq<Event>)
    requires ShowModal(mode, installList, modifyList, verdict).Shown?
    ensures Run(ShowModal(mode, installList, modifyList, verdict).shell, events).errors == []
    ensures Consistent(Run(ShowModal(mode, installList, modifyList, verdict).shell, events))
  {
  }

  const Welcome: DialogId := DialogId("WixSharp.UI.Forms.WelcomeDialog")
  const License: DialogId := DialogId("WixSharp.UI.Forms.LicenceDialog")
  const ExitDialog: DialogId := DialogId("WixSharp.UI.Forms.ExitDialog")

  /**
   Install mode with four dialogs: the shell opens on the first, three forward
   steps reach the exit dialog, and a fourth moves the cursor to 4 while the
   exit dialog stays mounted.
   */
  lemma FourDialogScenario()
    ensures var l := ShowModal(RunMode(true, false), [Welcome, License, ProgressDialog, ExitDialog], [], Success);
      && l.Shown? && l.shell.cursor == 0 && l.shell.current == Some(Welcome)
      && Run(l.shell, [Next, Next, Next]).cursor == 3
      && Run(l.shell, [Next, Next, Next]).current == Some(ExitDialog)
      && Run(l.shell, [Next, Next, Next, Next]).cursor == 4
      && Run(l.shell, [Next, Next, Next, Next]).current == Some(ExitDialog)
  {
    var l := ShowModal(RunMode(true, false), [Welcome, License, ProgressDialog, ExitDialog], [], Success);
    var s := l.shell;
    RunAppend(s, [Next, Next, Next], [Next]);
    assert [Next, Next, Next] + [Next] == [Next, Next, Next, Next];
  }
}

=== FILE: shell_state.dfy ===
/**
 The state a UI shell owns during one run: the dialog sequence chosen for the
 run mode, the navigation cursor, the dialog currently mounted in the shell
 view, and the run-state flags the exit dialog later reads.
 */
module ShellState {
  import opened Prelude

  datatype Shell = Shell(
    dialogs: DialogList,          // `Dialogs`: the sequence for the current setup type
    cursor: int32,                // `currentViewIndex`; -1 before the first transition
    current: Option<DialogId>,    // `CurrentDialog`: the dialog mounted in the view, if any
    view: bool,                   // a shell view exists (it is only created for a non-empty sequence)
    started: bool,                // `StartExecute` has been called
    canceled: bool,               // read by message dispatch; no shell operation assigns it
    finished: bool,               // the engine reported the end of the installation
    userInterrupted: bool,        // `UserInterrupted`
    errorDetected: bool,          // `ErrorDetected`
    errors: seq<string>           // `Errors`
  )

  /** A newly constructed shell: no dialogs, cursor -1, nothing mounted, every flag clear. */
  function Fresh(): (s: Shell)
    ensures s.dialogs == [] && s.cursor as int == -1 && s.current == None && !s.view
    ensures !s.started && !s.canceled && !s.finished
    ensures !s.userInterrupted && !s.errorDetected && s.errors == []
  {
    Shell([], -1, None, false, false, false, false, false, false, [])
  }

  /** The cursor designates an entry of the sequence that can be mounted into the view. */
  predicate Mountable(s: Shell, i: int32)
  {
    s.view && 0 <= i as int < |s.dialogs|
  }

  /**
   What every transition keeps: whenever the cursor designates a mountable
   entry, that entry is the mounted dialog, and a mounted dialog is always an
   entry of the sequence.
   */
  predicate Consistent(s: Shell)
  {
    && (Mountable(s, s.cursor) ==> s.current == Some(s.dialogs[s.cursor]))
    && (s.current.Some? ==> s.current.value in s.dialogs)
  }
}
